=== FILE: README.md ===
# kg-cli registry-and-linking model

This project models the core of `KnowledgeBaseCLI` from the kg-cli tool. The tool keeps a registry of named knowledge bases. Each one is a git repository that either already exists on the machine or is cloned into `~/.kg-cli/repos/<name>`, and each is published as a symbolic link `~/.kg-cli/links/<name>`.

The model replaces real I/O with an explicit world:

- **Filesystem** (`Fs.FileSystem`): a map from path to what `lstat` reports there, `Dir`, `File` or `Symlink(target)`. A directory's contents are the entries under its path. `Fs.Exists` is `fs.existsSync`. It follows links, at most 40 of them (Linux's limit), so a dangling or looping link does not "exist".
- **Registry** (`RegistryStore.Registry`): `this.config`, a map from name to `{path, repo_url, cloned_at}`. Beside it is the configuration file (`RegistryStore.ConfigFile`), which is missing, unreadable or holds a registry.
- **External outcomes** (`Orchestrator.Env`, plus `pullOk` and `statusOf`): whether `git clone`, link creation and `git pull` succeed, how the configuration write ends (saved, not opened, or failed after truncation), what `git status` reports, and the clock.

Every operation is a pure function from the world to a new world and a result:

- `Orchestrator.Setup`, `Update`, `List` and `Remove` model `setupKnowledgeBase`, `updateKnowledgeBase`, `listKnowledgeBases` and `removeKnowledgeBase`.
- The helpers they call have their own modules: `PathResolver.Detect`, `LinkManager.CreateSymlink` / `CreateLink`, `FetchGateway.GitClone` and `Orchestrator.CloneKnowledgeBase`.
- `Properties` holds the lemmas that relate several operations. Examples: a repeated cloning setup succeeds again without touching the disk and rewrites only the record's `cloned_at`; remove undoes setup's registration; a failed link leaves the record behind.

The home directory is a parameter `home`. `path.join` is modelled as `dir + "/" + name`. `pathStr.replace(/^~/, home)` is modelled with JavaScript's replacement patterns: a `$$`, `$&`, `` $` `` or `$'` inside the home directory is substituted, not copied.

Facts about the code that the model keeps:

- The record is written inside `cloneKnowledgeBase`, before the link is attempted, so a failed link still leaves a record. The detection branch of setup never writes one.
- A failed save of the configuration file is swallowed. The in-memory registry and the file then disagree. A write that fails after the file was opened leaves it truncated, and the next start loads the empty registry.
- `this.config[name]` is a plain object lookup, so the names `Object.prototype` supplies (`constructor`, `toString`, ...) pass the "not registered" guard of `remove`. `update` on such a name reads `path` as undefined and returns false, as for an unregistered name. Assigning `this.config['__proto__']` calls the prototype setter and stores no record.
- `list` distinguishes four states: not installed, dirty, clean, and installed when `git status` throws. It is a pure function of the world, so listing cannot change the registry or the file.
- `remove` unlinks `linkDir/name` only when it is a symbolic link.

## Model

| member | source | states |
|---|---|---|
| Paths.Join | lib/cli.js:174 | a joined path lies strictly inside the directory it was joined to, so for every name other than `.`, `..` and the empty name the link lies inside `linkDir` |
| Paths.LinkAreaApartFromRepos | lib/cli.js:15-16 | nothing inside `~/.kg-cli/links` is a repository path `~/.kg-cli/repos/<name>`, its `.git` marker, or inside that repository |
| Paths.RepoOutsideLinkArea | lib/cli.js:15-16 | a repository path and its `.git` marker are never inside the link directory |
| Fs.Resolve | lib/cli.js:131 | resolution through links ends, if at all, at an entry that is not a link; a directory or file resolves to itself; a path with no entry resolves to nothing |
| Fs.ResolveSurvivesNewEntries | lib/cli.js:131 | adding entries, or replacing a non-link with a non-link, keeps every resolvable path resolvable |
| Fs.RemoveEntry | lib/cli.js:59-65 | unlinking a link or file removes just that entry; removing a directory removes it and everything inside; no other entry changes and nothing is added |
| RegistryStore.Assign | lib/cli.js:159-163 | assigning a record stores it under the name, except for `__proto__` not already an own key, which stores nothing; every other record is kept |
| RegistryStore.Load | lib/cli.js:27-36 | a missing or unreadable configuration file loads as the empty registry; a stored one loads as itself |
| RegistryStore.Save | lib/cli.js:38-44 | a successful save stores the registry; a save that cannot open the file leaves the previous file; a write that fails after truncation leaves an unreadable file |
| RegistryStore.LoadAfterSave | lib/cli.js:27-44 | load after a successful save returns the saved registry; after a failed save it returns what was loadable before or the empty registry, the latter whenever the write failed after truncation |
| LinkManager.PlaceSymlink | lib/cli.js:80 | creating the link succeeds exactly when the outcome allows it and nothing occupies the target; on success the target is a link to the source; on failure nothing changes |
| LinkManager.CreateSymlinkAsWritten | lib/cli.js:54-89 | the code as written succeeds exactly when link creation is allowed and the target is not a dangling link; a dangling target is left untouched |
| LinkManager.CreateSymlink | lib/cli.js:54-89 | succeeds exactly when link creation is allowed; then the target is a link to the source; a directory at the target goes with its contents, a link or file goes alone, its pointee untouched; every other entry is unchanged |
| LinkManager.CreateSymlinkAgreesAsWritten | lib/cli.js:57-66 | the as-written and corrected link creation give the same result on every filesystem without a dangling link at the target |
| LinkManager.DanglingTargetBlocksRelink | lib/cli.js:57 | concrete case: a dangling link at `links/docs` makes the as-written code fail although link creation is allowed |
| LinkManager.AsWrittenRelinkFails | lib/cli.js:57-80 | concrete case: the as-written code links to a missing source once, then fails on the identical second call |
| LinkManager.CreateSymlinkIdempotent | lib/cli.js:54-89 | linking the same source at the same target twice gives the same filesystem and result as linking once |
| LinkManager.CreateLinkAsWritten | lib/cli.js:57-80 | `createLink` over the as-written `createSymlink`: fails on a dangling link at the target and leaves it; otherwise identical to the corrected `createLink` |
| LinkManager.LinkNameFor | lib/cli.js:170-172 | a missing or empty link name defaults to the knowledge base's name; any other is kept |
| LinkManager.CreateLink | lib/cli.js:169-178 | the link is placed at `linkDir/linkName` and points at the source; only `linkDir/linkName` and what lies under it change |
| PathResolver.ExpandTilde | lib/cli.js:130 | only a leading `~` is replaced; a home directory without `$` replaces it literally; other paths are unchanged |
| PathResolver.SubstituteWithoutDollar | lib/cli.js:130 | a replacement string without `$` is inserted verbatim |
| PathResolver.SubstituteLiteralPrefix | lib/cli.js:130 | a `$`-free prefix of the replacement is copied verbatim and the remainder substituted on its own |
| PathResolver.SubstituteMatchThenLiteral | lib/cli.js:130 | `$&` followed by `$`-free text stands for the matched `~` and that text |
| PathResolver.DollarInHomeIsSubstituted | lib/cli.js:130 | concrete case: a home directory `/home/a$&b` expands `~/x` to `/home/a~b/x`, the `$&` standing for the matched `~` |
| PathResolver.Detect | lib/cli.js:126-147 | the result is the expanded form of the first candidate, in list order, that exists and holds `.git`; candidates before it do not qualify; the result is none exactly when no candidate qualifies |
| PathResolver.DetectAppend | lib/cli.js:129-146 | detection over `a + b` is detection over `a`, falling back to `b` only when `a` has no match |
| FetchGateway.GitClone | lib/cli.js:91-110 | an existing `reposDir/name` is returned as-is without cloning, whatever the clone outcome; otherwise success leaves a git repository there and failure changes nothing; only that path and its `.git` change |
| FetchGateway.GitCloneKeepsExisting | lib/cli.js:91-110 | cloning never makes an existing path stop existing |
| Orchestrator.Start | lib/cli.js:13-19 | the constructor's registry is the stored one, or empty when the file is missing or unreadable |
| Orchestrator.Detected | lib/cli.js:184-186 | detection runs only on present, non-empty `local_paths`, and then finds what `Detect` finds |
| Orchestrator.CloneKnowledgeBase | lib/cli.js:149-167 | a failed clone leaves the world unchanged; otherwise `{reposDir/name, repo_url, now}` is assigned to `config[name]`, the other records are kept and the registry is saved |
| Orchestrator.Setup | lib/cli.js:180-207 | detection wins and only links; without detection, a missing or empty `repo_url` and a failed clone each fail with nothing changed; after a clone the record is written and the result is the link's; on success `linkDir/name` points at the repository used; only `config[name]`, `linkDir/name` with what lies under it, and the clone destination change |
| Orchestrator.SetupAsWritten | lib/cli.js:180-207 | setup over the as-written `createSymlink`: after detection it succeeds exactly when link creation is allowed and no dangling link sits at `linkDir/name`, and a dangling one leaves the world unchanged; after a clone it records as `Setup` does and succeeds exactly when link creation is allowed and the link at `linkDir/name` does not dangle on the filesystem the clone left; only `config[name]`, `linkDir/name` with what lies under it, and the clone destination change |
| Orchestrator.CloneRevivesDanglingLink | lib/cli.js:57-80 | concrete case: a dangling link to `reposDir/docs` is revived by the clone, replaced, and the as-written setup succeeds |
| Orchestrator.SetupAgreesAsWritten | lib/cli.js:180-207 | the as-written and corrected setup agree on every world without a dangling link at `linkDir/name` |
| Orchestrator.DanglingLinkBlocksDetectedSetup | lib/cli.js:184-188 | with a dangling link at `linkDir/name`, the as-written setup of a detected local repository fails and changes nothing, while the corrected one returns the link outcome |
| Orchestrator.Update | lib/cli.js:209-222 | false for an unregistered name or a missing recorded path; otherwise the pull's outcome |
| Orchestrator.Classify | lib/cli.js:228-243 | not installed exactly when the path does not exist; dirty, clean or installed exactly when it exists and status reports changed files, none, or throws |
| Orchestrator.List | lib/cli.js:224-251 | one status per registered name, each the classification of its recorded path |
| Orchestrator.DropRepoAndRecord | lib/cli.js:269-279 | the recorded path no longer exists afterwards; exactly that record is dropped and the registry saved; only entries at or inside the recorded path are removed |
| Orchestrator.RemoveAsWritten | lib/cli.js:253-280 | the code as written: a name neither registered nor inherited changes nothing; for a registered name exactly its record is deleted and saved, the recorded path no longer exists, a live link at `linkDir/name` goes, a dangling link or a non-link there stays, and nothing else changes; an inherited name loses a live link, keeps a non-link there, and rewrites the file with the registry unchanged |
| Orchestrator.Remove | lib/cli.js:253-280 | a name neither registered nor inherited changes nothing; for a registered name exactly its record is deleted and saved, no link remains at `linkDir/name`, a non-link there stays, the recorded path no longer exists and nothing else changes; an inherited name loses its link, keeps a non-link there, and rewrites the file with the registry unchanged |
| Orchestrator.RemoveAgreesAsWritten | lib/cli.js:259-267 | the as-written and corrected remove agree on every world without a dangling link at `linkDir/name` |
| Orchestrator.RemoveLeavesDanglingLink | lib/cli.js:261-264 | concrete case: after the repository was deleted by hand, the as-written remove leaves the link to it behind |
| Orchestrator.RemoveInheritedNameUnlinks | lib/cli.js:254-279 | concrete case: `remove constructor` with an empty registry unlinks `linkDir/constructor` and writes the empty registry |
| Properties.DetectedSetupNeverFetches | lib/cli.js:184-189 | once detection succeeds, setup's outcome is independent of clone and save outcomes and the clock, and registry and file are unchanged |
| Properties.DetectedSetupLeavesNameUnregistered | lib/cli.js:186-188 | a name first set up from a detected repository stays unregistered, so a following update returns false |
| Properties.FailedLinkKeepsRecord | lib/cli.js:153-206 | a clone that succeeds and a link that fails: setup returns false, the record for `reposDir/name` remains, and update then returns the pull outcome |
| Properties.FailedSaveLosesRecord | lib/cli.js:38-44 | with a swallowed save failure, whether the old file stays or a truncated one is left, the record is in memory but a fresh start does not see it |
| Properties.CloneSetupKeepsRepo | lib/cli.js:200-206 | after a clone yields its path, that path still holds a real entry once the link is made |
| Properties.CloneSetupIdempotent | lib/cli.js:180-207 | setup without local candidates, once successful, succeeds again when repeated with link creation allowed: the disk is unchanged, only the record's `cloned_at` becomes the second run's clock and the registry is saved again; with the same outcomes and clock nothing changes |
| Properties.ProtoNameNeverRecorded | lib/cli.js:159 | a setup of the name `__proto__` never leaves a record |
| Properties.RemoveUndoesCloneSetup | lib/cli.js:253-280 | remove after a cloning setup of a new name restores the registry, and leaves neither a link at `linkDir/name` nor the repository |
| Properties.ListAfterCloneSetup | lib/cli.js:228-243 | after a cloning setup, list reports the name and not as "not installed" |

## Findings

| source | as written | input that shows it | evidently intended | confidence | as-written member | corrected member |
|---|---|---|---|---|---|---|
| lib/cli.js:57 | the target is cleared only if `fs.existsSync(target)`, which follows links | a dangling link at `~/.kg-cli/links/docs` whose pointee is still missing, and a setup of `docs` whose `local_paths` detects a different repository; the link is not cleared, `symlinkSync` fails with EEXIST and setup returns false (`LinkManager.DanglingTargetBlocksRelink`, `Orchestrator.DanglingLinkBlocksDetectedSetup`) | clear whatever `lstat` finds at the target, dangling links included | not executed; high | LinkManager.CreateSymlinkAsWritten | LinkManager.CreateSymlink |
| lib/cli.js:261 | the link is unlinked only if `fs.existsSync(linkPath)`, which follows links | the repository behind `~/.kg-cli/links/docs` was deleted by hand; `remove docs` drops the record but leaves the dangling link (`Orchestrator.RemoveLeavesDanglingLink`); a later setup of `docs` that detects a local repository elsewhere then fails as in the row above (a cloning setup recreates the pointee and succeeds) | unlink any link at `linkDir/name` | not executed; high | Orchestrator.RemoveAsWritten | Orchestrator.Remove |

`Setup` uses the corrected `CreateSymlink`, and the `Properties` lemmas use the corrected `Setup` and `Remove`. `SetupAgreesAsWritten` and `RemoveAgreesAsWritten` prove that each corrected operation coincides with its as-written version on every world without a dangling link at `linkDir/name`. So a `Properties` lemma about a single setup or remove holds for the code as written on those worlds. Lemmas that chain operations need the same condition at each step.

## Left out

- Console and chalk output, and the async scheduling: the code runs sequentially.
- bin/kg-cli.js, the command wiring and its example configurations, is not part of this model.
- `ensureDirs`: the three directories are assumed to exist. A missing parent folds into the link and clone outcomes.
- `os.homedir()` is the parameter `home`.
- `getPlatform` and the Windows `mklink` branch, including its `statSync(source)`, are foreign process calls. They fold into the `linkOk` outcome.
- simple-git is reduced to outcomes. A clone either fails with no trace or leaves a directory with a `.git` child. What `pull` does to the repository's contents is not modelled. `status` is reduced to "throws" or a count of changed files.
- Exceptions from `unlinkSync` and `removeSync` are not modelled: removal always succeeds. In the source such an exception aborts the operation midway.
- PathResolver.ExpandTilde: its contract states the expansion only for a home directory without `$`. With a `$`, the body applies the replacement patterns (`PathResolver.Substitute`), and only the example `DollarInHomeIsSubstituted` is proved about it.
- Object.prototype mutation: assigning `this.config['__proto__']` an object changes the registry object's prototype for the rest of the process, so later lookups could see that record's fields. Each command is a new process, and the model drops the assignment.
- Properties.FailedLinkKeepsRecord: assumes the assignment stores a record, which excludes only a `__proto__` not already registered; that case is `Properties.ProtoNameNeverRecorded`.
- Properties.FailedSaveLosesRecord: assumes the assignment stores a record, which excludes only a `__proto__` not already registered; that case is `Properties.ProtoNameNeverRecorded`.
- Properties.RemoveUndoesCloneSetup: assumes the assignment stores a record, which excludes only a `__proto__` not already registered; that case is `Properties.ProtoNameNeverRecorded`.
- Properties.ListAfterCloneSetup: assumes the assignment stores a record, which excludes only a `__proto__` not already registered; that case is `Properties.ProtoNameNeverRecorded`.
- JSON persistence: file contents that parse to something other than an object are not modelled. `readJsonSync` failing is the `Unreadable` state.
- Paths.Join: the names `.`, `..` and the empty name are not modelled as `path.join` treats them. `path.join(linkDir, ".")` and `path.join(linkDir, "")` are `linkDir` itself and `..` gives `~/.kg-cli`, so in the source a setup of such a name replaces the whole link directory (or the tool root, configuration file and clones included) by the link, and a remove of `.` deletes `reposDir` with every clone. The model joins them literally, so the disk frames of `LinkManager.CreateLink`, `Orchestrator.Setup` and `Orchestrator.Remove` do not describe those names.
- Path normalisation: the model compares paths as plain strings. `path.join` and the operating system treat `.`, `..`, empty and repeated separators and a trailing `/` as naming the same place. So the model's paths differ from the source's for names containing `/` or `..`, and for `local_paths` entries such as `~/kb/`, `a//b` or `./kb`, which `existsSync` finds but `Fs.Exists` looks up as different keys.
- Symbolic links are resolved only at the last path component, and at the candidate directory when its `.git` is looked up. Ancestors are otherwise taken literally.
- Relative link sources: the model treats every path as an absolute key. The operating system resolves a relative source stored by `symlinkSync` against the link's directory.
- `List` returns a map, so the order in which `Object.entries` prints the records is not modelled. The printed `repo_url || '未知'` is not modelled either.
- Orchestrator.Update: returns only the pull outcome. The world is unchanged because repository contents are outside the model.
- Orchestrator.Remove: the frame clause lets entries inside the recorded path disappear even when that path is a link, which removes only the link itself. The exact effect is stated by `Fs.RemoveEntry`, which `Orchestrator.DropRepoAndRecord` uses.
- Orchestrator.RemoveAsWritten: the frame clause lets entries inside the recorded path disappear even when that path is a link, which removes only the link itself. The exact effect is stated by `Fs.RemoveEntry`, which `Orchestrator.DropRepoAndRecord` uses.
- Properties.CloneSetupIdempotent: assumes `reposDir/name` is not itself a link. Otherwise the new link could lie on that link's resolution path and change whether it exists.
- Properties.CloneSetupIdempotent: also assumes the second link creation is allowed, since it unlinks and recreates the link.
- Properties.FailedLinkKeepsRecord: assumes `reposDir/name` is not itself a link, for its `update` clause.
- Properties.ListAfterCloneSetup: assumes `reposDir/name` is not itself a link.
- Properties.CloneSetupKeepsRepo: assumes `reposDir/name` is not itself a link. A live link there already exists to `gitClone`, so the clone returns it untouched and the path holds that link rather than a real entry.

=== FILE: fetch.dfy ===
/** The version-control side of the core, reduced to outcomes: `gitClone`'s
    existence short-circuit and what a successful clone leaves on disk, and the
    answer of `git status`. */
module FetchGateway {
  import opened Wrappers
  import opened Paths
  import opened Fs

  datatype CloneResult = CloneResult(fs: FileSystem, path: Option<Path>)

  /** `gitClone(repoUrl, name)`: an existing `reposDir/name` is returned as it
      is, whatever it holds, without cloning. Otherwise the clone either fails
      (`cloneOk` false, or a dangling link occupies the destination) and
      yields `None`, or leaves a directory with a `.git` child there. */
  function GitClone(home: Path, fs: FileSystem, name: string, cloneOk: bool): (r: CloneResult)
    ensures Exists(fs, RepoPath(home, name)) ==> r == CloneResult(fs, Some(RepoPath(home, name)))
    ensures !Exists(fs, RepoPath(home, name)) ==>
              (r.path.Some? <==> cloneOk && RepoPath(home, name) !in fs)
    ensures r.path.Some? ==> r.path.value == RepoPath(home, name) && Exists(r.fs, r.path.value)
    ensures r.path.Some? && !Exists(fs, RepoPath(home, name)) ==> IsGitRepo(r.fs, RepoPath(home, name))
    ensures r.path.None? ==> r.fs == fs
    ensures forall q | q != RepoPath(home, name) && q != Join(RepoPath(home, name), ".git") ::
              Get(r.fs, q) == Get(fs, q)
  {
    var repo := RepoPath(home, name);
    if Exists(fs, repo) then CloneResult(fs, Some(repo))
    else if cloneOk && repo !in fs then
      var git := Join(repo, ".git");
      var fs' := fs[repo := Dir][git := Dir];
      assert git != repo;
      assert Resolve(fs', git, MaxSymlinkHops) == Some(git);
      CloneResult(fs', Some(repo))
    else CloneResult(fs, None)
  }

  /** A clone never makes an existing path stop existing. */
  lemma GitCloneKeepsExisting(home: Path, fs: FileSystem, name: string, cloneOk: bool, p: Path)
    requires Exists(fs, p)
    ensures Exists(GitClone(home, fs, name, cloneOk).fs, p)
  {
    ResolveSurvivesNewEntries(fs, GitClone(home, fs, name, cloneOk).fs, p, MaxSymlinkHops);
  }

  /** What `git.status()` reports for a repository: it throws, or it lists the
      changed files (only their number matters here). */
  datatype GitStatus = StatusFailed | StatusOk(changedFiles: nat)
}

=== FILE: fs.dfy ===
/** The abstract filesystem the core observes through `fs-extra`: a map from
    path to what `lstat` would report there. A directory's contents are the
    entries whose paths lie under it. */
module Fs {
  import opened Wrappers
  import opened Paths

  datatype Entry = Dir | File | Symlink(target: Path)

  type FileSystem = map<Path, Entry>

  function Get(fs: FileSystem, p: Path): Option<Entry> {
    if p in fs then Some(fs[p]) else None
  }

  predicate IsDirAt(fs: FileSystem, p: Path) { p in fs && fs[p].Dir? }

  predicate IsSymlinkAt(fs: FileSystem, p: Path) { p in fs && fs[p].Symlink? }

  /** How many symbolic links the operating system follows before giving up
      with ELOOP (Linux's MAXSYMLINKS). */
  const MaxSymlinkHops: nat := 40

  /** The non-link entry reached from `p` by following at most `hops` links,
      if any. */
  function Resolve(fs: FileSystem, p: Path, hops: nat): (r: Option<Path>)
    ensures r.Some? ==> r.value in fs && !fs[r.value].Symlink?
    ensures r.Some? && !IsSymlinkAt(fs, p) ==> r.value == p
    // A directory or file resolves to itself; an empty path to nothing.
    ensures p in fs && !fs[p].Symlink? ==> r == Some(p)
    ensures p !in fs ==> r.None?
    decreases hops
  {
    if p !in fs then None
    else match fs[p]
      case Symlink(t) => if hops == 0 then None else Resolve(fs, t, hops - 1)
      case _ => Some(p)
  }

  /** `fs.existsSync(p)`: true when `p` resolves, through links, to a real entry.
      A dangling or looping link does not exist in this sense. */
  predicate Exists(fs: FileSystem, p: Path) {
    Resolve(fs, p, MaxSymlinkHops).Some?
  }

  /** Something occupies `p`, yet `existsSync(p)` is false. */
  predicate Dangling(fs: FileSystem, p: Path) {
    p in fs && !Exists(fs, p)
  }

  /** The two checks of repository detection: the path exists, and the
      directory it resolves to has a `.git` child that exists. */
  predicate IsGitRepo(fs: FileSystem, p: Path) {
    && Exists(fs, p)
    && var q := Resolve(fs, p, MaxSymlinkHops).value;
       fs[q].Dir? && Exists(fs, Join(q, ".git"))
  }

  /** What `fs.unlinkSync` (a link or file) or `fs.removeSync` (a directory,
      with everything inside it) does to the entry at `p`. Links inside a
      removed directory are removed, never followed. */
  function RemoveEntry(fs: FileSystem, p: Path): (r: FileSystem)
    ensures p !in r
    ensures r.Keys <= fs.Keys
    ensures forall q | q in r :: r[q] == fs[q]
    ensures forall q | q != p && !(IsDirAt(fs, p) && IsUnder(q, p)) :: Get(r, q) == Get(fs, q)
    ensures IsDirAt(fs, p) ==> forall q | IsUnder(q, p) :: q !in r
  {
    if IsDirAt(fs, p) then map q | q in fs && q != p && !IsUnder(q, p) :: fs[q]
    else fs - {p}
  }

  /** Adding entries, or turning entries into non-links, never makes a
      resolvable path unresolvable. */
  lemma {:induction false} ResolveSurvivesNewEntries(fs: FileSystem, fs': FileSystem, p: Path, hops: nat)
    requires fs.Keys <= fs'.Keys
    requires forall q | q in fs :: fs'[q] == fs[q] || !fs'[q].Symlink?
    requires Resolve(fs, p, hops).Some?
    ensures Resolve(fs', p, hops).Some?
    decreases hops
  {
    if fs'[p].Symlink? {
      assert fs[p] == fs'[p];
      ResolveSurvivesNewEntries(fs, fs', fs[p].target, hops - 1);
    }
  }
}

=== FILE: link.dfy ===
/** `createSymlink` and `createLink`: clear whatever occupies the target, then
    place a symbolic link there. */
module LinkManager {
  import opened Wrappers
  import opened Paths
  import opened Fs

  datatype LinkResult = LinkResult(fs: FileSystem, ok: bool)

  /** `fs.symlinkSync(source, target)` (or `mklink` on Windows). It fails with
      EEXIST when anything, even a dangling link, occupies `target`; `linkOk`
      is every other reason the call may fail (permissions, a missing parent,
      no privilege to create links on Windows). */
  function PlaceSymlink(fs: FileSystem, source: Path, target: Path, linkOk: bool): (r: LinkResult)
    ensures r.ok <==> linkOk && target !in fs
    ensures r.ok ==> r.fs == fs[target := Symlink(source)]
    ensures !r.ok ==> r.fs == fs
  {
    if linkOk && target !in fs then LinkResult(fs[target := Symlink(source)], true)
    else LinkResult(fs, false)
  }

  /** `createSymlink` as written: the target is cleared only when
      `existsSync(target)` holds, which follows links, so a dangling link at
      the target is left in place and the new link then cannot be created. */
  function CreateSymlinkAsWritten(fs: FileSystem, source: Path, target: Path, linkOk: bool): (r: LinkResult)
    ensures r.ok <==> linkOk && !Dangling(fs, target)
    ensures r.ok ==> Get(r.fs, target) == Some(Symlink(source))
    ensures Dangling(fs, target) ==> r.fs == fs
  {
    var cleared := if Exists(fs, target) then RemoveEntry(fs, target) else fs;
    PlaceSymlink(cleared, source, target, linkOk)
  }

  /** `createSymlink` with the evidently intended guard: whatever occupies the
      target (a link, dangling or not, a directory, a file) is cleared. */
  function CreateSymlink(fs: FileSystem, source: Path, target: Path, linkOk: bool): (r: LinkResult)
    ensures r.ok <==> linkOk
    ensures r.ok ==> Get(r.fs, target) == Some(Symlink(source))
    ensures !r.ok ==> target !in r.fs
    // A link at the target is unlinked without touching what it points to,
    // a file is unlinked, a directory is removed with its contents ...
    ensures IsDirAt(fs, target) ==> forall q | IsUnder(q, target) :: q !in r.fs
    // ... and nothing else changes.
    ensures forall q | q != target && !(IsDirAt(fs, target) && IsUnder(q, target)) ::
              Get(r.fs, q) == Get(fs, q)
  {
    PlaceSymlink(RemoveEntry(fs, target), source, target, linkOk)
  }

  /** The two versions of `createSymlink` behave identically unless a dangling
      link occupies the target. */
  lemma CreateSymlinkAgreesAsWritten(fs: FileSystem, source: Path, target: Path, linkOk: bool)
    requires !Dangling(fs, target)
    ensures CreateSymlinkAsWritten(fs, source, target, linkOk) == CreateSymlink(fs, source, target, linkOk)
  {
  }

  /** The as-written version fails on a dangling link although link creation
      itself would succeed: a link left behind after its repository was
      deleted blocks every later relink. */
  lemma DanglingTargetBlocksRelink()
    ensures var fs := map["/h/.kg-cli/links/docs" := Symlink("/gone")];
            !CreateSymlinkAsWritten(fs, "/work/docs", "/h/.kg-cli/links/docs", true).ok
  {
  }

  /** The as-written version is not idempotent: linking to a source that does
      not exist succeeds once, and then the link it made dangles and the
      same call fails. */
  lemma AsWrittenRelinkFails()
    ensures var r1 := CreateSymlinkAsWritten(map[], "/gone", "/l/docs", true);
            && r1.ok
            && !CreateSymlinkAsWritten(r1.fs, "/gone", "/l/docs", true).ok
  {
  }

  /** Linking twice in a row is the same as linking once. */
  lemma CreateSymlinkIdempotent(fs: FileSystem, source: Path, target: Path)
    ensures var r1 := CreateSymlink(fs, source, target, true);
            CreateSymlink(r1.fs, source, target, true) == r1
  {
  }

  /** `createLink`'s default: a missing or empty `linkName` means `name`. */
  function LinkNameFor(name: string, linkName: Option<string>): (r: string)
    ensures linkName.Some? && linkName.value != "" ==> r == linkName.value
    ensures linkName.None? || linkName.value == "" ==> r == name
  {
    if linkName.None? || linkName.value == "" then name else linkName.value
  }

  /** `createLink`: link `source` at `linkDir/linkName`. Only the link
      directory changes. */
  function CreateLink(home: Path, fs: FileSystem, name: string, source: Path,
                      linkName: Option<string>, linkOk: bool): (r: LinkResult)
    ensures r.ok <==> linkOk
    ensures r.ok ==> Get(r.fs, LinkPath(home, LinkNameFor(name, linkName))) == Some(Symlink(source))
    // Only linkDir/linkName and what lies under it change ...
    ensures forall q | q != LinkPath(home, LinkNameFor(name, linkName))
                       && !IsUnder(q, LinkPath(home, LinkNameFor(name, linkName))) ::
              Get(r.fs, q) == Get(fs, q)
    // ... so nothing outside linkDir does.
    ensures forall q | !IsUnder(q, LinkDir(home)) :: Get(r.fs, q) == Get(fs, q)
  {
    var target := LinkPath(home, LinkNameFor(name, linkName));
    var r := CreateSymlink(fs, source, target, linkOk);
    assert forall q | IsUnder(q, target) :: IsUnder(q, LinkDir(home)) by {
      forall q | IsUnder(q, target) ensures IsUnder(q, LinkDir(home)) {
        UnderIsTransitive(q, target, LinkDir(home));
      }
    }
    r
  }

  /** `createLink` over the as-written `createSymlink`. */
  function CreateLinkAsWritten(home: Path, fs: FileSystem, name: string, source: Path,
                               linkName: Option<string>, linkOk: bool): (r: LinkResult)
    ensures r.ok <==> linkOk && !Dangling(fs, LinkPath(home, LinkNameFor(name, linkName)))
    ensures r.ok ==> Get(r.fs, LinkPath(home, LinkNameFor(name, linkName))) == Some(Symlink(source))
    ensures Dangling(fs, LinkPath(home, LinkNameFor(name, linkName))) ==> r.fs == fs
    ensures !Dangling(fs, LinkPath(home, LinkNameFor(name, linkName))) ==>
              r == CreateLink(home, fs, name, source, linkName, linkOk)
  {
    var target := LinkPath(home, LinkNameFor(name, linkName));
    if !Dangling(fs, target) then
      CreateSymlinkAgreesAsWritten(fs, source, target, linkOk);
      CreateSymlinkAsWritten(fs, source, target, linkOk)
    else CreateSymlinkAsWritten(fs, source, target, linkOk)
  }
}

=== FILE: orchestrator.dfy ===
/** `KnowledgeBaseCLI`'s operations as transitions of an explicit world: the
    filesystem, the in-memory registry (`this.config`) and the configuration
    file. External outcomes arrive as parameters. */
module Orchestrator {
  import opened Wrappers
  import opened Paths
  import opened Fs
  import opened RegistryStore
  import opened LinkManager
  import opened PathResolver
  import opened FetchGateway

  datatype World = World(fs: FileSystem, config: Registry, file: ConfigFile)

  /** The world after an operation, and what the operation returned. */
  datatype Step<T> = Step(world: World, result: T)

  /** Outcomes the core cannot decide: whether `git clone` and link creation
      succeed, how the configuration write ends, and the clock reading for
      `cloned_at`. */
  datatype Env = Env(cloneOk: bool, linkOk: bool, save: SaveOutcome, now: string)

  /** One entry of the caller's configuration: `local_paths` and `repo_url`,
      either possibly absent. */
  datatype KbConfig = KbConfig(localPaths: Option<seq<Path>>, repoUrl: Option<string>)

  /** The four states `list` prints. */
  datatype Health = NotInstalled | Dirty | Clean | Installed

  /** The constructor: the registry is whatever `loadConfig` yields. */
  function Start(fs: FileSystem, file: ConfigFile): (w: World)
    ensures w.fs == fs && w.file == file
    ensures file.Stored? ==> w.config == file.registry
    ensures !file.Stored? ==> w.config == map[]
  {
    World(fs, Load(file), file)
  }

  /** `!repoUrl` is false: present and not the empty string. */
  predicate HasRepoUrl(repoUrl: Option<string>) {
    repoUrl.Some? && repoUrl.value != ""
  }

  /** Step 1 of setup: detection runs only over a non-empty `local_paths`. */
  function Detected(home: Path, fs: FileSystem, cfg: KbConfig): (r: Option<Path>)
    ensures r.Some? ==> cfg.localPaths.Some? && r == Detect(home, fs, cfg.localPaths.value)
    ensures cfg.localPaths.Some? && Detect(home, fs, cfg.localPaths.value).Some? ==> r.Some?
  {
    var candidates := cfg.localPaths.GetOr([]);
    if |candidates| > 0 then Detect(home, fs, candidates) else None
  }

  /** The record `cloneKnowledgeBase` writes. */
  function CloneRecord(home: Path, name: string, repoUrl: string, now: string): Record {
    Record(RepoPath(home, name), repoUrl, now)
  }

  /** `cloneKnowledgeBase`: clone (or find already cloned), then record and
      save. The record is written whenever `gitClone` yields a path, also when
      that path existed beforehand; on a failed clone nothing changes. */
  function CloneKnowledgeBase(home: Path, w: World, name: string, repoUrl: string, env: Env): (r: Step<Option<Path>>)
    ensures r.world.fs == GitClone(home, w.fs, name, env.cloneOk).fs
    ensures r.result == GitClone(home, w.fs, name, env.cloneOk).path
    ensures r.result.None? ==> r.world == w
    ensures r.result.Some? ==>
              && r.world.config == Assign(w.config, name, CloneRecord(home, name, repoUrl, env.now))
              && r.world.file == Save(w.file, r.world.config, env.save)
  {
    var g := GitClone(home, w.fs, name, env.cloneOk);
    if g.path.None? then Step(w, None)
    else
      var config := Assign(w.config, name, CloneRecord(home, name, repoUrl, env.now));
      Step(World(g.fs, config, Save(w.file, config, env.save)), g.path)
  }

  /** `setupKnowledgeBase(name, cfg)`, linking through the corrected
      `createSymlink`. */
  function Setup(home: Path, w: World, name: string, cfg: KbConfig, env: Env): (s: Step<bool>)
    // A detected repository is linked and nothing else happens: no clone, no record.
    ensures Detected(home, w.fs, cfg).Some? ==>
              var l := CreateLink(home, w.fs, name, Detected(home, w.fs, cfg).value, None, env.linkOk);
              s == Step(w.(fs := l.fs), l.ok)
    // Without detection, a missing repo_url fails and changes nothing.
    ensures Detected(home, w.fs, cfg).None? && !HasRepoUrl(cfg.repoUrl) ==> s == Step(w, false)
    // A failed clone fails and changes nothing.
    ensures (Detected(home, w.fs, cfg).None? && HasRepoUrl(cfg.repoUrl)
             && GitClone(home, w.fs, name, env.cloneOk).path.None?) ==> s == Step(w, false)
    // Once cloning yields a path, the record is written before linking, so it
    // survives a failed link; the result is the link's.
    ensures (Detected(home, w.fs, cfg).None? && HasRepoUrl(cfg.repoUrl)
             && GitClone(home, w.fs, name, env.cloneOk).path.Some?) ==>
              && s.result == env.linkOk
              && s.world.config == Assign(w.config, name, CloneRecord(home, name, cfg.repoUrl.value, env.now))
              && s.world.file == Save(w.file, s.world.config, env.save)
    // On success the link at linkDir/name points at the repository used.
    ensures s.result ==>
              Get(s.world.fs, LinkPath(home, name)) ==
              Some(Symlink(Detected(home, w.fs, cfg).GetOr(RepoPath(home, name))))
    // Only the record for `name` can change ...
    ensures forall n | n != name :: (n in s.world.config <==> n in w.config)
    ensures forall n | n != name && n in w.config :: s.world.config[n] == w.config[n]
    // ... and on disk only linkDir/name with what lies under it, and the
    // clone destination.
    ensures forall q | q != LinkPath(home, name) && !IsUnder(q, LinkPath(home, name))
                       && q != RepoPath(home, name) && q != Join(RepoPath(home, name), ".git") ::
              Get(s.world.fs, q) == Get(w.fs, q)
  {
    var detected := Detected(home, w.fs, cfg);
    if detected.Some? then
      var l := CreateLink(home, w.fs, name, detected.value, None, env.linkOk);
      Step(w.(fs := l.fs), l.ok)
    else if !HasRepoUrl(cfg.repoUrl) then Step(w, false)
    else
      var c := CloneKnowledgeBase(home, w, name, cfg.repoUrl.value, env);
      if c.result.None? then Step(c.world, false)
      else
        var l := CreateLink(home, c.world.fs, name, c.result.value, None, env.linkOk);
        Step(c.world.(fs := l.fs), l.ok)
  }

  /** `setupKnowledgeBase(name, cfg)` as written, linking through the
      as-written `createSymlink`: a dangling link at `linkDir/name` when the
      link step runs makes setup fail. */
  function SetupAsWritten(home: Path, w: World, name: string, cfg: KbConfig, env: Env): (s: Step<bool>)
    // After detection only the link step runs; a dangling link at
    // linkDir/name makes it fail and nothing changes.
    ensures Detected(home, w.fs, cfg).Some? ==>
              && s.world.config == w.config && s.world.file == w.file
              && s.result == (env.linkOk && !Dangling(w.fs, LinkPath(home, name)))
    ensures Detected(home, w.fs, cfg).Some? && Dangling(w.fs, LinkPath(home, name)) ==> s == Step(w, false)
    ensures Detected(home, w.fs, cfg).None? && !HasRepoUrl(cfg.repoUrl) ==> s == Step(w, false)
    ensures (Detected(home, w.fs, cfg).None? && HasRepoUrl(cfg.repoUrl)
             && GitClone(home, w.fs, name, env.cloneOk).path.None?) ==> s == Step(w, false)
    ensures (Detected(home, w.fs, cfg).None? && HasRepoUrl(cfg.repoUrl)
             && GitClone(home, w.fs, name, env.cloneOk).path.Some?) ==>
              && s.world.config == Assign(w.config, name, CloneRecord(home, name, cfg.repoUrl.value, env.now))
              && s.world.file == Save(w.file, s.world.config, env.save)
    // The link step then sees the filesystem the clone left: a link there
    // that the clone revived is replaced, one still dangling makes it fail.
    ensures (Detected(home, w.fs, cfg).None? && HasRepoUrl(cfg.repoUrl)
             && GitClone(home, w.fs, name, env.cloneOk).path.Some?) ==>
              s.result == (env.linkOk && !Dangling(GitClone(home, w.fs, name, env.cloneOk).fs, LinkPath(home, name)))
    ensures s.result ==>
              Get(s.world.fs, LinkPath(home, name)) ==
              Some(Symlink(Detected(home, w.fs, cfg).GetOr(RepoPath(home, name))))
    // Only the record for `name` can change ...
    ensures forall n | n != name :: (n in s.world.config <==> n in w.config)
    ensures forall n | n != name && n in w.config :: s.world.config[n] == w.config[n]
    // ... and on disk only linkDir/name with what lies under it, and the
    // clone destination.
    ensures forall q | q != LinkPath(home, name) && !IsUnder(q, LinkPath(home, name))
                       && q != RepoPath(home, name) && q != Join(RepoPath(home, name), ".git") ::
              Get(s.world.fs, q) == Get(w.fs, q)
  {
    var detected := Detected(home, w.fs, cfg);
    if detected.Some? then
      var l := CreateLinkAsWritten(home, w.fs, name, detected.value, None, env.linkOk);
      Step(w.(fs := l.fs), l.ok)
    else if !HasRepoUrl(cfg.repoUrl) then Step(w, false)
    else
      var c := CloneKnowledgeBase(home, w, name, cfg.repoUrl.value, env);
      if c.result.None? then Step(c.world, false)
      else
        var l := CreateLinkAsWritten(home, c.world.fs, name, c.result.value, None, env.linkOk);
        Step(c.world.(fs := l.fs), l.ok)
  }

  /** The two versions of setup agree unless a dangling link sits at
      `linkDir/name` beforehand: a clone only adds entries, so it cannot
      make the link there dangle. */
  lemma SetupAgreesAsWritten(home: Path, w: World, name: string, cfg: KbConfig, env: Env)
    requires !Dangling(w.fs, LinkPath(home, name))
    ensures SetupAsWritten(home, w, name, cfg, env) == Setup(home, w, name, cfg, env)
  {
    var lp := LinkPath(home, name);
    if Detected(home, w.fs, cfg).None? && HasRepoUrl(cfg.repoUrl) {
      var g := GitClone(home, w.fs, name, env.cloneOk);
      if g.path.Some? && lp in g.fs {
        assert IsUnder(lp, LinkDir(home));
        LinkAreaApartFromRepos(home, lp, name);
        GitCloneKeepsExisting(home, w.fs, name, env.cloneOk, lp);
      }
    }
  }

  /** A cloning setup revives a dangling link that points at the clone
      destination: once the clone has recreated `reposDir/docs`, the link
      exists again, is replaced, and the as-written setup succeeds. */
  lemma CloneRevivesDanglingLink()
    ensures var w := World(map["/h/.kg-cli/links/docs" := Symlink("/h/.kg-cli/repos/docs")], map[], Missing);
            SetupAsWritten("/h", w, "docs", KbConfig(None, Some("u")), Env(true, true, Saved, "t")).result
  {
    var w := World(map["/h/.kg-cli/links/docs" := Symlink("/h/.kg-cli/repos/docs")], map[], Missing);
    SampleLayout();
    var g := GitClone("/h", w.fs, "docs", true);
    assert Resolve(g.fs, "/h/.kg-cli/repos/docs", MaxSymlinkHops - 1) == Some("/h/.kg-cli/repos/docs");
  }

  /** With a dangling link at `linkDir/name`, the as-written setup of a
      detected local repository fails and changes nothing, however the link
      creation itself would have gone. */
  lemma DanglingLinkBlocksDetectedSetup(home: Path, w: World, name: string, cfg: KbConfig, env: Env)
    requires Dangling(w.fs, LinkPath(home, name))
    requires Detected(home, w.fs, cfg).Some?
    ensures SetupAsWritten(home, w, name, cfg, env) == Step(w, false)
    ensures Setup(home, w, name, cfg, env).result == env.linkOk
  {
  }

  /** `updateKnowledgeBase(name)`: true exactly when the name is registered,
      its recorded path exists and the pull succeeds. The pull's effect on the
      repository's contents is not part of the world, so the world is not
      returned. */
  function Update(w: World, name: string, pullOk: bool): (r: bool)
    ensures name !in w.config ==> !r
    ensures name in w.config && !Exists(w.fs, w.config[name].path) ==> !r
    ensures name in w.config && Exists(w.fs, w.config[name].path) ==> r == pullOk
  {
    if name !in w.config then false
    else if !Exists(w.fs, w.config[name].path) then false
    else pullOk
  }

  /** The status `list` shows for one recorded path. */
  function Classify(fs: FileSystem, path: Path, status: GitStatus): (h: Health)
    ensures h == NotInstalled <==> !Exists(fs, path)
    ensures h == Dirty <==> Exists(fs, path) && status.StatusOk? && status.changedFiles > 0
    ensures h == Clean <==> Exists(fs, path) && status == StatusOk(0)
    ensures h == Installed <==> Exists(fs, path) && status.StatusFailed?
  {
    if !Exists(fs, path) then NotInstalled
    else match status
      case StatusFailed => Installed
      case StatusOk(n) => if n > 0 then Dirty else Clean
  }

  /** `listKnowledgeBases`: one status per registered name, computed from the
      world without changing it; `statusOf` is what `git status` answers. */
  function List(w: World, statusOf: Path -> GitStatus): (r: map<string, Health>)
    ensures r.Keys == w.config.Keys
    ensures forall n | n in r ::
              r[n] == Classify(w.fs, w.config[n].path, statusOf(w.config[n].path))
  {
    map n | n in w.config :: Classify(w.fs, w.config[n].path, statusOf(w.config[n].path))
  }

  /** Last two steps of `removeKnowledgeBase`, on the filesystem left after
      the link step: remove the recorded path if it exists, drop the record,
      save. */
  function DropRepoAndRecord(w: World, fs: FileSystem, name: string, save: SaveOutcome): (r: World)
    requires name in w.config
    ensures !Exists(r.fs, w.config[name].path)
    ensures r.config.Keys == w.config.Keys - {name}
    ensures forall n | n in r.config :: r.config[n] == w.config[n]
    ensures r.file == Save(w.file, r.config, save)
    ensures r.fs.Keys <= fs.Keys && forall q | q in r.fs :: r.fs[q] == fs[q]
    ensures forall q | q != w.config[name].path && !IsUnder(q, w.config[name].path) ::
              Get(r.fs, q) == Get(fs, q)
  {
    var repo := w.config[name].path;
    var fs' := if Exists(fs, repo) then RemoveEntry(fs, repo) else fs;
    var config := w.config - {name};
    World(fs', config, Save(w.file, config, save))
  }

  /** The teardown after the link step, for a name `this.config[name]`
      finds: a record is torn down by `DropRepoAndRecord`; an inherited
      member has no `path` (`existsSync(undefined)` is false) and no own key
      to delete, so only the save happens. */
  function Teardown(w: World, fs: FileSystem, name: string, save: SaveOutcome): (r: World)
    requires IsKnown(w.config, name)
    ensures name in w.config ==> r == DropRepoAndRecord(w, fs, name, save)
    ensures name !in w.config ==> r == World(fs, w.config, Save(w.file, w.config, save))
  {
    if name in w.config then DropRepoAndRecord(w, fs, name, save)
    else World(fs, w.config, Save(w.file, w.config, save))
  }

  /** `removeKnowledgeBase` as written: the link is unlinked only when
      `existsSync` (which follows links) and `lstat` both say it is a live
      link, so a dangling link is left behind. */
  function RemoveAsWritten(home: Path, w: World, name: string, save: SaveOutcome): (r: World)
    // A name `this.config[name]` does not find changes nothing.
    ensures !IsKnown(w.config, name) ==> r == w
    // Exactly the record for `name` goes, and the registry is saved.
    ensures name in w.config ==> r.config.Keys == w.config.Keys - {name}
    ensures name in w.config ==> forall n | n in r.config :: r.config[n] == w.config[n]
    ensures name in w.config ==> r.file == Save(w.file, r.config, save)
    ensures name in w.config ==> !Exists(r.fs, w.config[name].path)
    // A live link at linkDir/name goes; a dangling one stays, unless it lies
    // in the removed repository.
    ensures IsKnown(w.config, name) && !Dangling(w.fs, LinkPath(home, name)) ==>
              !IsSymlinkAt(r.fs, LinkPath(home, name))
    ensures (name in w.config && Dangling(w.fs, LinkPath(home, name))
             && LinkPath(home, name) != w.config[name].path && !IsUnder(LinkPath(home, name), w.config[name].path)) ==>
              Get(r.fs, LinkPath(home, name)) == Get(w.fs, LinkPath(home, name))
    // A non-link at linkDir/name stays, unless it lies in the removed repository.
    ensures (name in w.config && LinkPath(home, name) in w.fs && !IsSymlinkAt(w.fs, LinkPath(home, name))
             && LinkPath(home, name) != w.config[name].path && !IsUnder(LinkPath(home, name), w.config[name].path)) ==>
              Get(r.fs, LinkPath(home, name)) == Get(w.fs, LinkPath(home, name))
    // Nothing else on disk changes.
    ensures name in w.config ==>
              forall q | q != LinkPath(home, name) && q != w.config[name].path && !IsUnder(q, w.config[name].path) ::
                Get(r.fs, q) == Get(w.fs, q)
    // An inherited name (`constructor`, `toString`, ...) without a record
    // still loses a live link and rewrites the file, registry unchanged.
    ensures (name !in w.config && name in ObjectPrototypeNames) ==>
              && r.config == w.config
              && r.file == Save(w.file, w.config, save)
              && (Dangling(w.fs, LinkPath(home, name)) ==> r.fs == w.fs)
              && forall q | q != LinkPath(home, name) :: Get(r.fs, q) == Get(w.fs, q)
    // ... and a non-link at linkDir/name stays for it too.
    ensures (name !in w.config && name in ObjectPrototypeNames && !IsSymlinkAt(w.fs, LinkPath(home, name))) ==>
              Get(r.fs, LinkPath(home, name)) == Get(w.fs, LinkPath(home, name))
  {
    if !IsKnown(w.config, name) then w
    else
      var lp := LinkPath(home, name);
      var fs := if Exists(w.fs, lp) && IsSymlinkAt(w.fs, lp) then w.fs - {lp} else w.fs;
      Teardown(w, fs, name, save)
  }

  /** `removeKnowledgeBase` with the evidently intended link step: whatever
      link occupies `linkDir/name`, live or dangling, is unlinked. */
  function Remove(home: Path, w: World, name: string, save: SaveOutcome): (r: World)
    // A name `this.config[name]` does not find changes nothing.
    ensures !IsKnown(w.config, name) ==> r == w
    // Exactly the record for `name` goes, and the registry is saved.
    ensures name in w.config ==> r.config.Keys == w.config.Keys - {name}
    ensures name in w.config ==> forall n | n in r.config :: r.config[n] == w.config[n]
    ensures name in w.config ==> r.file == Save(w.file, r.config, save)
    // No link is left at linkDir/name and the recorded path is gone.
    ensures IsKnown(w.config, name) ==> !IsSymlinkAt(r.fs, LinkPath(home, name))
    ensures name in w.config ==> !Exists(r.fs, w.config[name].path)
    // A non-link at linkDir/name stays, unless it lies in the removed repository.
    ensures (name in w.config && LinkPath(home, name) in w.fs && !IsSymlinkAt(w.fs, LinkPath(home, name))
             && LinkPath(home, name) != w.config[name].path && !IsUnder(LinkPath(home, name), w.config[name].path)) ==>
              Get(r.fs, LinkPath(home, name)) == Get(w.fs, LinkPath(home, name))
    // Nothing else on disk changes.
    ensures name in w.config ==>
              forall q | q != LinkPath(home, name) && q != w.config[name].path && !IsUnder(q, w.config[name].path) ::
                Get(r.fs, q) == Get(w.fs, q)
    // An inherited name (`constructor`, `toString`, ...) without a record
    // still loses its link and rewrites the file, registry unchanged.
    ensures (name !in w.config && name in ObjectPrototypeNames) ==>
              && r.config == w.config
              && r.file == Save(w.file, w.config, save)
              && forall q | q != LinkPath(home, name) :: Get(r.fs, q) == Get(w.fs, q)
    // ... and a non-link at linkDir/name stays for it too.
    ensures (name !in w.config && name in ObjectPrototypeNames && !IsSymlinkAt(w.fs, LinkPath(home, name))) ==>
              Get(r.fs, LinkPath(home, name)) == Get(w.fs, LinkPath(home, name))
  {
    if !IsKnown(w.config, name) then w
    else
      var lp := LinkPath(home, name);
      var fs := if IsSymlinkAt(w.fs, lp) then w.fs - {lp} else w.fs;
      Teardown(w, fs, name, save)
  }

  /** The two versions of `removeKnowledgeBase` agree unless a dangling link
      sits at `linkDir/name`. */
  lemma RemoveAgreesAsWritten(home: Path, w: World, name: string, save: SaveOutcome)
    requires !Dangling(w.fs, LinkPath(home, name))
    ensures RemoveAsWritten(home, w, name, save) == Remove(home, w, name, save)
  {
  }

  /** The as-written remove leaves a dangling link behind: here the
      repository was deleted by hand, and after `remove docs` the link to it
      is still in the link directory. */
  lemma RemoveLeavesDanglingLink()
    ensures var w := World(map["/h/.kg-cli/links/docs" := Symlink("/h/.kg-cli/repos/docs")],
                           map["docs" := Record("/h/.kg-cli/repos/docs", "https://example.test/docs.git", "t")],
                           Missing);
            IsSymlinkAt(RemoveAsWritten("/h", w, "docs", Saved).fs, "/h/.kg-cli/links/docs")
  {
    SampleLayout();
  }

  /** `remove constructor` without such a record: the inherited member
      passes the guard, the link at `linkDir/constructor` is unlinked and the
      file is rewritten. */
  lemma RemoveInheritedNameUnlinks()
    ensures var w := World(map["/h/.kg-cli/links/constructor" := Symlink("/work/c"), "/work/c" := Dir],
                           map[], Missing);
            var r := Remove("/h", w, "constructor", Saved);
            && "/h/.kg-cli/links/constructor" !in r.fs
            && r.file == Stored(map[])
  {
    var w := World(map["/h/.kg-cli/links/constructor" := Symlink("/work/c"), "/work/c" := Dir],
                   map[], Missing);
    assert "constructor" in ObjectPrototypeNames;
    SampleLayout();
    assert IsSymlinkAt(w.fs, LinkPath("/h", "constructor"));
  }
}

=== FILE: paths.dfy ===
/** Path strings and the fixed layout under the user's home directory:
    `~/.kg-cli/repos` holds cloned repositories, `~/.kg-cli/links` holds the links. */
module Paths {

  type Path = string

  /** `path.join(dir, name)`, without the normalisation of `.`, `..` and repeated separators. */
  function Join(dir: Path, name: string): (p: Path)
    ensures IsUnder(p, dir)
  {
    dir + "/" + name
  }

  /** `p` lies strictly inside the directory `dir`. */
  predicate IsUnder(p: Path, dir: Path) {
    |dir| < |p| && p[..|dir|] == dir && p[|dir|] == '/'
  }

  function ToolRoot(home: Path): Path { Join(home, ".kg-cli") }

  function ReposDir(home: Path): Path { Join(ToolRoot(home), "repos") }

  function LinkDir(home: Path): Path { Join(ToolRoot(home), "links") }

  /** Where `gitClone` puts the repository called `name`. */
  function RepoPath(home: Path, name: string): Path { Join(ReposDir(home), name) }

  /** Where `createLink` puts the link called `linkName`. */
  function LinkPath(home: Path, linkName: string): Path { Join(LinkDir(home), linkName) }

  /** Being inside a subdirectory of `dir` means being inside `dir`. */
  lemma UnderIsTransitive(p: Path, q: Path, dir: Path)
    requires IsUnder(p, q) && IsUnder(q, dir)
    ensures IsUnder(p, dir)
  {
  }

  /** A path inside `dir` agrees with `dir` on every character of `dir`. */
  lemma UnderAgreesOnPrefix(p: Path, dir: Path, i: nat)
    requires IsUnder(p, dir) && i < |dir|
    ensures p[i] == dir[i]
  {
  }

  /** The link directory and the repository directory part at character
      `|home| + 9`: the `l` of `links` against the `r` of `repos`. */
  lemma ToolDirsDiffer(home: Path)
    ensures |LinkDir(home)| > |home| + 9 && LinkDir(home)[|home| + 9] == 'l'
    ensures |ReposDir(home)| > |home| + 9 && ReposDir(home)[|home| + 9] == 'r'
  {
  }

  /** Nothing inside the link directory is the repository path of any name,
      its `.git` marker, or inside that repository. */
  lemma LinkAreaApartFromRepos(home: Path, q: Path, name: string)
    requires IsUnder(q, LinkDir(home))
    ensures q != RepoPath(home, name)
    ensures q != Join(RepoPath(home, name), ".git")
    ensures !IsUnder(q, RepoPath(home, name))
  {
    var k := |home| + 9;
    ToolDirsDiffer(home);
    UnderAgreesOnPrefix(q, LinkDir(home), k);
    var rp := RepoPath(home, name);
    UnderAgreesOnPrefix(rp, ReposDir(home), k);
    UnderAgreesOnPrefix(Join(rp, ".git"), rp, k);
    if IsUnder(q, rp) {
      UnderAgreesOnPrefix(q, rp, k);
    }
  }

  /** The repository path of a name is never inside the link directory. */
  lemma RepoOutsideLinkArea(home: Path, name: string)
    ensures !IsUnder(RepoPath(home, name), LinkDir(home))
    ensures !IsUnder(Join(RepoPath(home, name), ".git"), LinkDir(home))
  {
    if IsUnder(RepoPath(home, name), LinkDir(home)) {
      LinkAreaApartFromRepos(home, RepoPath(home, name), name);
    }
    if IsUnder(Join(RepoPath(home, name), ".git"), LinkDir(home)) {
      LinkAreaApartFromRepos(home, Join(RepoPath(home, name), ".git"), name);
    }
  }

  /** The layout under the sample home directory `/h`, spelled out. */
  lemma SampleLayout()
    ensures ToolRoot("/h") == "/h/.kg-cli"
    ensures LinkDir("/h") == "/h/.kg-cli/links"
    ensures ReposDir("/h") == "/h/.kg-cli/repos"
    ensures LinkPath("/h", "docs") == "/h/.kg-cli/links/docs"
    ensures RepoPath("/h", "docs") == "/h/.kg-cli/repos/docs"
    ensures LinkPath("/h", "constructor") == "/h/.kg-cli/links/constructor"
  {
    var root := ToolRoot("/h");
    assert |root| == 10;
    assert forall i | 0 <= i < 10 :: root[i] == "/h/.kg-cli"[i];
    var links := LinkDir("/h");
    assert |links| == 16;
    assert forall i | 0 <= i < 16 :: links[i] == "/h/.kg-cli/links"[i];
    var repos := ReposDir("/h");
    assert |repos| == 16;
    assert forall i | 0 <= i < 16 :: repos[i] == "/h/.kg-cli/repos"[i];
    var l := LinkPath("/h", "docs");
    assert |l| == 21;
    assert forall i | 0 <= i < 21 :: l[i] == "/h/.kg-cli/links/docs"[i];
    var r := RepoPath("/h", "docs");
    assert |r| == 21;
    assert forall i | 0 <= i < 21 :: r[i] == "/h/.kg-cli/repos/docs"[i];
    var c := LinkPath("/h", "constructor");
    assert |c| == 28;
    assert forall i | 0 <= i < 28 :: c[i] == "/h/.kg-cli/links/constructor"[i];
  }
}

=== FILE: properties.dfy ===
/** Properties that relate several operations: what `setup` leaves for the
    later `update`, `list`, `remove` and a second `setup`. */
module Properties {
  import opened Wrappers
  import opened Paths
  import opened Fs
  import opened RegistryStore
  import opened LinkManager
  import opened PathResolver
  import opened FetchGateway
  import opened Orchestrator

  /** The caller's configuration offers no local candidates. */
  predicate NoCandidates(cfg: KbConfig) {
    cfg.localPaths.None? || |cfg.localPaths.value| == 0
  }

  /** Detection takes priority: once a candidate qualifies, setup's outcome
      does not depend on whether a clone or a save would have succeeded, nor on
      the clock. */
  lemma DetectedSetupNeverFetches(home: Path, w: World, name: string, cfg: KbConfig, env1: Env, env2: Env)
    requires Detected(home, w.fs, cfg).Some?
    requires env1.linkOk == env2.linkOk
    ensures Setup(home, w, name, cfg, env1) == Setup(home, w, name, cfg, env2)
    ensures Setup(home, w, name, cfg, env1).world.config == w.config
    ensures Setup(home, w, name, cfg, env1).world.file == w.file
  {
  }

  /** The detection branch writes no record, so a name first set up from a
      local repository cannot be updated afterwards. */
  lemma DetectedSetupLeavesNameUnregistered(home: Path, w: World, name: string, cfg: KbConfig, env: Env, pullOk: bool)
    requires Detected(home, w.fs, cfg).Some?
    requires name !in w.config
    ensures name !in Setup(home, w, name, cfg, env).world.config
    ensures !Update(Setup(home, w, name, cfg, env).world, name, pullOk)
  {
  }

  /** The record is written before the link is attempted: a clone that
      succeeds followed by a link that fails reports failure yet leaves the
      record, and `update` then works on it (when the repository path is not
      itself a link, whose resolution the new link could divert). */
  lemma FailedLinkKeepsRecord(home: Path, w: World, name: string, cfg: KbConfig, env: Env, pullOk: bool)
    requires Detected(home, w.fs, cfg).None? && HasRepoUrl(cfg.repoUrl)
    requires GitClone(home, w.fs, name, env.cloneOk).path.Some?
    requires !env.linkOk
    requires !IsSymlinkAt(w.fs, RepoPath(home, name))
    requires AssignmentStoresKey(w.config, name)
    ensures var s := Setup(home, w, name, cfg, env);
            && !s.result
            && name in s.world.config
            && s.world.config[name].path == RepoPath(home, name)
            && Update(s.world, name, pullOk) == pullOk
  {
    var s := Setup(home, w, name, cfg, env);
    CloneSetupKeepsRepo(home, w, name, cfg, env);
  }

  /** A swallowed save failure: the record is in memory but not on disk, so
      the next process start does not see it (whether the failed write left
      the old file or a truncated one). */
  lemma FailedSaveLosesRecord(home: Path, w: World, name: string, cfg: KbConfig, env: Env)
    requires Detected(home, w.fs, cfg).None? && HasRepoUrl(cfg.repoUrl)
    requires GitClone(home, w.fs, name, env.cloneOk).path.Some?
    requires env.save != Saved
    requires AssignmentStoresKey(w.config, name)
    requires name !in Load(w.file)
    ensures name in Setup(home, w, name, cfg, env).world.config
    ensures name !in Start(w.fs, Setup(home, w, name, cfg, env).world.file).config
  {
  }

  /** After setup by cloning has produced the repository path, that path holds
      a real (non-link) entry, which the link step does not disturb. */
  lemma CloneSetupKeepsRepo(home: Path, w: World, name: string, cfg: KbConfig, env: Env)
    requires Detected(home, w.fs, cfg).None? && HasRepoUrl(cfg.repoUrl)
    requires GitClone(home, w.fs, name, env.cloneOk).path.Some?
    requires !IsSymlinkAt(w.fs, RepoPath(home, name))
    ensures var fs := Setup(home, w, name, cfg, env).world.fs;
            RepoPath(home, name) in fs && !fs[RepoPath(home, name)].Symlink? && Exists(fs, RepoPath(home, name))
  {
    var rp := RepoPath(home, name);
    var g := GitClone(home, w.fs, name, env.cloneOk);
    assert rp in g.fs && !g.fs[rp].Symlink? by {
      if Exists(w.fs, rp) {
        assert rp in w.fs;
      }
    }
    RepoOutsideLinkArea(home, name);
    var fs := Setup(home, w, name, cfg, env).world.fs;
    assert Get(fs, rp) == Get(g.fs, rp);
  }

  /** Setup without local candidates, run again after it has succeeded,
      again succeeds without touching the disk: the clone is found in place
      and the link is recreated as it was. Only the record's `cloned_at` is
      rewritten to the second run's clock, and the registry is saved again;
      with the same outcomes and clock the second run changes nothing. */
  lemma CloneSetupIdempotent(home: Path, w: World, name: string, cfg: KbConfig, env1: Env, env2: Env)
    requires NoCandidates(cfg) && HasRepoUrl(cfg.repoUrl)
    requires !IsSymlinkAt(w.fs, RepoPath(home, name))
    requires Setup(home, w, name, cfg, env1).result
    requires env2.linkOk
    ensures var s1 := Setup(home, w, name, cfg, env1);
            var s2 := Setup(home, s1.world, name, cfg, env2);
            && s2.result
            && s2.world.fs == s1.world.fs
            && (name in s1.world.config ==>
                  s2.world.config == s1.world.config[name := s1.world.config[name].(clonedAt := env2.now)])
            && (name !in s1.world.config ==> s2.world.config == s1.world.config)
            && s2.world.file == Save(s1.world.file, s2.world.config, env2.save)
            && (env2 == env1 ==> s2 == s1)
  {
    var rp := RepoPath(home, name);
    var s1 := Setup(home, w, name, cfg, env1);
    var c1 := CloneKnowledgeBase(home, w, name, cfg.repoUrl.value, env1);
    CloneSetupKeepsRepo(home, w, name, cfg, env1);
    var c2 := CloneKnowledgeBase(home, s1.world, name, cfg.repoUrl.value, env2);
    assert c2.result == Some(rp);
    assert c2.world.fs == s1.world.fs;
    CreateSymlinkIdempotent(c1.world.fs, rp, LinkPath(home, name));
  }

  /** A `repo_url` setup of the name `__proto__` goes through the prototype
      setter and never becomes a record, so it is lost with the process. */
  lemma ProtoNameNeverRecorded(home: Path, w: World, cfg: KbConfig, env: Env)
    requires "__proto__" !in w.config
    ensures "__proto__" !in Setup(home, w, "__proto__", cfg, env).world.config
  {
  }

  /** Remove undoes the registration made by a setup that cloned: the
      registry is back to what it was, and neither a link at `linkDir/name`
      nor the repository remains. */
  lemma RemoveUndoesCloneSetup(home: Path, w: World, name: string, cfg: KbConfig, env: Env, save: SaveOutcome)
    requires name !in w.config
    requires AssignmentStoresKey(w.config, name)
    requires Detected(home, w.fs, cfg).None? && HasRepoUrl(cfg.repoUrl)
    requires GitClone(home, w.fs, name, env.cloneOk).path.Some?
    ensures var r := Remove(home, Setup(home, w, name, cfg, env).world, name, save);
            && r.config == w.config
            && !IsSymlinkAt(r.fs, LinkPath(home, name))
            && !Exists(r.fs, RepoPath(home, name))
  {
  }

  /** After a successful setup by cloning, `list` reports the name as
      present in one of the three installed states. */
  lemma ListAfterCloneSetup(home: Path, w: World, name: string, cfg: KbConfig, env: Env, statusOf: Path -> GitStatus)
    requires Detected(home, w.fs, cfg).None? && HasRepoUrl(cfg.repoUrl)
    requires GitClone(home, w.fs, name, env.cloneOk).path.Some?
    requires !IsSymlinkAt(w.fs, RepoPath(home, name))
    requires AssignmentStoresKey(w.config, name)
    ensures var l := List(Setup(home, w, name, cfg, env).world, statusOf);
            name in l && l[name] != NotInstalled
  {
    CloneSetupKeepsRepo(home, w, name, cfg, env);
  }
}

=== FILE: registry.dfy ===
/** The registry (`this.config`, a plain JavaScript object) and its durable
    copy, `~/.kg-cli/config.json`. */
module RegistryStore {
  import opened Paths

  /** One entry of the registry, as `cloneKnowledgeBase` writes it. */
  datatype Record = Record(path: Path, repoUrl: string, clonedAt: string)

  /** The registry's own keys and their records. */
  type Registry = map<string, Record>

  /** What the configuration file holds: nothing, something `readJsonSync`
      rejects (an empty or half-written file among them), or a registry. */
  datatype ConfigFile = Missing | Unreadable | Stored(registry: Registry)

  /** How `writeJsonSync` ends: it writes the file; it cannot open it, so
      the file is untouched; or it opened (and so truncated) the file and then
      failed to write, leaving something `readJsonSync` rejects. */
  datatype SaveOutcome = Saved | OpenFailed | WriteFailed

  /** The members every plain object inherits from `Object.prototype`.
      `this.config[name]` finds them even without a record of that name. */
  const ObjectPrototypeNames: set<string> :=
    {"constructor", "__defineGetter__", "__defineSetter__", "hasOwnProperty",
     "__lookupGetter__", "__lookupSetter__", "isPrototypeOf", "propertyIsEnumerable",
     "toString", "valueOf", "__proto__", "toLocaleString"}

  /** `this.config[name]` is truthy: an own record, or an inherited member. */
  predicate IsKnown(config: Registry, name: string) {
    name in config || name in ObjectPrototypeNames
  }

  /** `this.config[name] = record` creates or replaces an own key, except
      that assigning to a missing `__proto__` invokes the prototype setter. */
  predicate AssignmentStoresKey(config: Registry, name: string) {
    name != "__proto__" || name in config
  }

  /** `this.config[name] = record`, seen through the own keys that
      `JSON.stringify` and `Object.entries` see. */
  function Assign(config: Registry, name: string, record: Record): (r: Registry)
    ensures AssignmentStoresKey(config, name) ==> name in r && r[name] == record
    ensures !AssignmentStoresKey(config, name) ==> name !in r
    ensures forall n | n != name :: (n in r <==> n in config)
    ensures forall n | n != name && n in config :: r[n] == config[n]
  {
    if AssignmentStoresKey(config, name) then config[name := record] else config
  }

  /** `loadConfig`: the stored registry, or an empty one when the file is
      missing or unreadable. */
  function Load(file: ConfigFile): (r: Registry)
    ensures file.Stored? ==> r == file.registry
    ensures !file.Stored? ==> r == map[]
  {
    if file.Stored? then file.registry else map[]
  }

  /** `saveConfig`: the file after writing `registry`. A failure is swallowed;
      it leaves the previous file, or an unreadable one. */
  function Save(file: ConfigFile, registry: Registry, outcome: SaveOutcome): (r: ConfigFile)
    ensures outcome == Saved ==> r.Stored? && r.registry == registry
    ensures outcome == OpenFailed ==> r == file
    ensures outcome == WriteFailed ==> r == Unreadable
  {
    match outcome
    case Saved => Stored(registry)
    case OpenFailed => file
    case WriteFailed => Unreadable
  }

  /** Saving and loading again gives back the registry that was saved. After
      a failed save, loading gives what was loadable before, or, when the
      write truncated the file, nothing at all. */
  lemma LoadAfterSave(file: ConfigFile, registry: Registry, outcome: SaveOutcome)
    ensures outcome == Saved ==> Load(Save(file, registry, outcome)) == registry
    ensures outcome != Saved ==>
              Load(Save(file, registry, outcome)) == Load(file) || Load(Save(file, registry, outcome)) == map[]
    ensures outcome == WriteFailed ==> Load(Save(file, registry, outcome)) == map[]
  {
  }
}

=== FILE: resolver.dfy ===
/** `detectKnowledgeBase`: find an existing local repository among candidate paths. */
module PathResolver {
  import opened Wrappers
  import opened Paths
  import opened Fs

  /** The replacement text `String.prototype.replace` makes of the string
      `repl` when the pattern `/^~/` matched: `$$` is `$`, `$&` is the match
      `~`, `` $` `` is what precedes it (nothing) and `$'` is what follows it,
      `rest`; every other character, `$` included, stands for itself. */
  function Substitute(repl: string, rest: string): string
    decreases |repl|
  {
    if |repl| == 0 then ""
    else if repl[0] == '$' && |repl| >= 2 && repl[1] in {'$', '&', '`', '\''} then
      var piece := match repl[1]
        case '$' => "$"
        case '&' => "~"
        case '`' => ""
        case _ => rest;
      piece + Substitute(repl[2..], rest)
    else [repl[0]] + Substitute(repl[1..], rest)
  }

  /** A replacement without `$` stands for itself. */
  lemma {:induction false} SubstituteWithoutDollar(repl: string, rest: string)
    requires '$' !in repl
    ensures Substitute(repl, rest) == repl
    decreases |repl|
  {
    if |repl| > 0 {
      assert '$' !in repl[1..];
      SubstituteWithoutDollar(repl[1..], rest);
    }
  }

  /** `pathStr.replace(/^~/, home)`: a leading `~` (and only that one
      character) is replaced by the home directory, read as a replacement
      pattern; other paths are unchanged. */
  function ExpandTilde(home: Path, s: Path): (r: Path)
    ensures |s| > 0 && s[0] == '~' && '$' !in home ==> r == home + s[1..]
    ensures (|s| == 0 || s[0] != '~') ==> r == s
  {
    if |s| > 0 && s[0] == '~' then
      if '$' !in home then SubstituteWithoutDollar(home, s[1..]); Substitute(home, s[1..]) + s[1..]
      else Substitute(home, s[1..]) + s[1..]
    else s
  }

  /** A `$`-free prefix of the replacement is copied verbatim and the rest is
      substituted on its own. */
  lemma {:induction false} SubstituteLiteralPrefix(a: string, b: string, rest: string)
    requires '$' !in a
    ensures Substitute(a + b, rest) == a + Substitute(b, rest)
    decreases |a|
  {
    if |a| > 0 {
      assert a[0] in a;
      assert (a + b)[0] == a[0] && (a + b)[1..] == a[1..] + b;
      assert Substitute(a + b, rest) == [a[0]] + Substitute(a[1..] + b, rest);
      assert '$' !in a[1..];
      SubstituteLiteralPrefix(a[1..], b, rest);
      calc {
        Substitute(a + b, rest);
        [a[0]] + (a[1..] + Substitute(b, rest));
        ([a[0]] + a[1..]) + Substitute(b, rest);
        { assert a == [a[0]] + a[1..]; }
        a + Substitute(b, rest);
      }
    } else {
      assert a + b == b;
    }
  }

  /** `$&` followed by literal text stands for `~` and that text. */
  lemma SubstituteMatchThenLiteral(t: string, rest: string)
    requires '$' !in t
    ensures Substitute("$&" + t, rest) == "~" + t
  {
    var r := "$&" + t;
    assert r[0] == '$' && r[1] == '&' && r[2..] == t;
    SubstituteWithoutDollar(t, rest);
  }

  /** A home directory containing `$&` puts the `~` back: with home
      `/home/a$&b`, `~/x` expands to `/home/a~b/x`. */
  lemma DollarInHomeIsSubstituted()
    ensures ExpandTilde("/home/a$&b", "~/x") == "/home/a~b/x"
  {
    var pre, t, tail := "/home/a", "b", "/x";
    assert "/home/a$&b" == pre + ("$&" + t);
    assert "~/x" == "~" + tail;
    SubstituteMatchThenLiteral(t, tail);
    SubstituteLiteralPrefix(pre, "$&" + t, tail);
    assert "/home/a~b/x" == pre + ("~" + t) + tail;
  }

  /** Candidate `p` qualifies: after expansion it exists and holds `.git`. */
  predicate Qualifies(home: Path, fs: FileSystem, p: Path) {
    IsGitRepo(fs, ExpandTilde(home, p))
  }

  /** The loop of `detectKnowledgeBase`: the expanded form of the first
      candidate, in list order, that exists and holds `.git`; candidates that
      exist without `.git` are passed over; `None` when nothing qualifies. */
  function Detect(home: Path, fs: FileSystem, paths: seq<Path>): (r: Option<Path>)
    ensures r.None? <==> forall i | 0 <= i < |paths| :: !Qualifies(home, fs, paths[i])
    ensures r.Some? ==> exists i | 0 <= i < |paths| ::
              && r.value == ExpandTilde(home, paths[i])
              && Qualifies(home, fs, paths[i])
              && forall j | 0 <= j < i :: !Qualifies(home, fs, paths[j])
  {
    if |paths| == 0 then None
    else if Qualifies(home, fs, paths[0]) then
      Some(ExpandTilde(home, paths[0]))
    else
      var r := Detect(home, fs, paths[1..]);
      assert forall i | 1 <= i < |paths| :: paths[i] == paths[1..][i - 1];
      if r.Some? then
        var i :| 0 <= i < |paths[1..]| && r.value == ExpandTilde(home, paths[1..][i])
                 && Qualifies(home, fs, paths[1..][i])
                 && forall j | 0 <= j < i :: !Qualifies(home, fs, paths[1..][j]);
        assert forall j | 0 <= j < i + 1 :: !Qualifies(home, fs, paths[j]) by {
          forall j | 0 <= j < i + 1 ensures !Qualifies(home, fs, paths[j]) {
            if j > 0 { assert paths[j] == paths[1..][j - 1]; }
          }
        }
        assert paths[i + 1] == paths[1..][i];
        r
      else r
  }

  /** Detection over two lists joined is detection over the first, falling
      back to the second only when the first has no match. */
  lemma {:induction false} DetectAppend(home: Path, fs: FileSystem, a: seq<Path>, b: seq<Path>)
    ensures Detect(home, fs, a + b) ==
            if Detect(home, fs, a).Some? then Detect(home, fs, a) else Detect(home, fs, b)
    decreases |a|
  {
    if |a| == 0 {
      assert a + b == b;
    } else {
      assert (a + b)[0] == a[0];
      assert (a + b)[1..] == a[1..] + b;
      if !Qualifies(home, fs, a[0]) {
        DetectAppend(home, fs, a[1..], b);
      }
    }
  }
}

=== FILE: wrappers.dfy ===
/** The optional-value datatype the model uses wherever the source returns
    `null` or reads a property that may be absent. */
module Wrappers {

  datatype Option<+T> = None | Some(value: T) {

    /** The wrapped value, or `default` when there is none (the source's `x || default`). */
    function GetOr(default: T): T {
      match this
      case Some(v) => v
      case None => default
    }
  }
}
